=== FILE: README.md ===
# Test runner, customer map and logging proxy — a Dafny model

This project models three small Java components and proves their behaviour:

1. **The annotation-driven test runner** (`hw06-annotations`): `TestRunner`
   discovers the `@Before`, `@Test` and `@After` methods of a class, runs each
   test on a fresh instance (befores, test body, afters), contains faults per
   stage, and reduces the `TestResult`s to `TestStatistics`.
2. **`CustomerService`** (`hw04-generics`): a `TreeMap` ordered only by the
   customers' scores, with `add`, `getSmallest` and `getNext`.
3. **The `LoggingProxy` invocation handler** (`hw10-byteCodes`): it logs calls
   to `@Log` methods, matched by name and parameter types, and forwards every
   call to the target.

Files and modules:

| file | module | contents |
|---|---|---|
| `wrappers.dfy` | `Wrappers` | `Option` (Java `null`) and `Result` (a thrown exception) |
| `text.dfy` | `Text` | decimal rendering and parsing, `Join`, `Split` |
| `faults.dfy` | `Faults` | `Fault` (class, message, cause), `TestExecutionException`, the `InvocationTargetException` wrapper, `RootCause` |
| `test_model.dfy` | `TestModel` | `Marker`, `MethodEntry`, `TestClass`, `TestClassContext`, `TestResult` with its factories, `TestStatistics` and its `toString` |
| `test_runner.dfy` | `TestRunner` | discovery, the per-test protocol, the loop over tests, statistics, `runTests` |
| `test_runner_proofs.dfy` | `TestRunnerProofs` | the runner's properties |
| `customer_service.dfy` | `CustomerService` | the score-ordered map and a client's walk over it |
| `logging_proxy.dfy` | `LoggingProxy` | signatures, `collectLoggedMethods`, `invoke`, the log line |

How reflection is replaced. A subject method is a `MethodEntry`: its name, its
set of markers and the `Outcome` of its body (`Ok` or `Throws(fault)`). A class
is its name and its declared methods, in the order reflection reports them.
That order is unspecified in Java, so it is an input. `Method.invoke` wraps a
body's fault in an `InvocationTargetException`; that wrapper is one `cause`
level. The no-argument constructor is a `factory: nat -> Outcome`. It gives the
outcome of the k-th construction attempt: what the `try` at
`TestRunner.java:114-117` (`getDeclaredConstructor`, `setAccessible`,
`newInstance`) throws, if anything. There is one attempt per test, and k counts from 0.
Every run returns its value together with a trace of `Event`s. An event is
either `Instantiate(k)` or `Invoke(k, method)`, so "which method ran, on which
instance, in which order" can be stated and proved.

A construction failure is not contained per test. `createTestInstance` is
called outside any `try` (`TestRunner.java:90`), so the
`TestExecutionException` it throws (`TestRunner.java:118-119`) escapes
`executeSingleTest`, `executeAllTests` and `runTests`. The run ends there, and
no later test is started. `ConstructionFaultAbortsRun`,
`NoTestAfterConstructionFault` and `OnlyConstructionFaultsEscape` state this.

## Model

| member | source | states |
|---|---|---|
| TestRunner.FindMethodsWithAnnotation | hw06-annotations/src/main/java/ru/otus/homework/runner/TestRunner.java:63-67 | every method in a group carries the marker and was declared; every declared method with the marker is in the group |
| TestRunnerProofs.DiscoveryKeepsDeclaredOrder | hw06-annotations/src/main/java/ru/otus/homework/runner/TestRunner.java:63-67 | a group is the declared sequence read at exactly the positions whose method carries the marker, in increasing order: nothing added, dropped or reordered |
| TestRunner.AnalyzeTestClass | hw06-annotations/src/main/java/ru/otus/homework/runner/TestRunner.java:52-58 | the plan keeps the class; a method is in the before, test or after group exactly when it is declared and carries that marker, so a method with several markers is in every matching group |
| TestRunner.InvokeMethod | hw06-annotations/src/main/java/ru/otus/homework/runner/TestRunner.java:141-145 | `executeMethod` returns normally exactly when the body does; a body fault comes out wrapped in an `InvocationTargetException` whose cause is that fault |
| TestRunner.CreateTestInstance | hw06-annotations/src/main/java/ru/otus/homework/runner/TestRunner.java:113-121 | succeeds exactly when the k-th construction succeeds, giving instance k; otherwise throws a `TestExecutionException` "Не удалось создать экземпляр класса: <class>" whose cause is the construction fault |
| TestRunner.ExecuteBeforeMethods | hw06-annotations/src/main/java/ru/otus/homework/runner/TestRunner.java:126-139 | the before stage reports success exactly when no before body throws |
| TestRunnerProofs.BeforeStageCompletes | hw06-annotations/src/main/java/ru/otus/homework/runner/TestRunner.java:126-139 | with no faulting before, every before is invoked in order and the stage reports success |
| TestRunnerProofs.BeforeStageStopsAtFirstFault | hw06-annotations/src/main/java/ru/otus/homework/runner/TestRunner.java:126-139 | when before i is the first to throw, befores 0..i are invoked, none after it, and the stage reports failure |
| TestRunner.ExecuteTestMethod | hw06-annotations/src/main/java/ru/otus/homework/runner/TestRunner.java:150-159 | invokes the test once on the instance; reports no exception exactly when the body returns, and otherwise the very fault the body threw, with the invocation wrapper removed |
| TestRunner.ExecuteAfterMethods | hw06-annotations/src/main/java/ru/otus/homework/runner/TestRunner.java:164-175 | its steps are the `Calls` reference over the after methods: each is invoked once, in order, on the instance, whatever their bodies throw |
| TestRunner.ExecuteSingleTest | hw06-annotations/src/main/java/ru/otus/homework/runner/TestRunner.java:86-108 | the test starts by creating instance k; a construction fault escapes with nothing else done; otherwise it yields a result named after the test that passes iff its exception is null |
| TestRunnerProofs.SingleTestWithoutBeforeFault | hw06-annotations/src/main/java/ru/otus/homework/runner/TestRunner.java:86-108 | with no faulting before, one test is: create instance k, every before, the test body, every after, all on instance k; success if the body returns, else a failure carrying the body's own fault |
| TestRunnerProofs.SingleTestWithBeforeFault | hw06-annotations/src/main/java/ru/otus/homework/runner/TestRunner.java:92-97 | a faulting before skips the remaining befores and the test body, still runs every after, and fails with a fresh `TestExecutionException` "Ошибка в методе @Before" without cause |
| TestRunnerProofs.SingleTestVerdict | hw06-annotations/src/main/java/ru/otus/homework/runner/TestRunner.java:86-108 | once the instance exists the test yields a result named after the method; it passes iff every before and the body return normally, and passes iff its exception is null |
| TestRunnerProofs.AftersDoNotAffectResult | hw06-annotations/src/main/java/ru/otus/homework/runner/TestRunner.java:101-107 | replacing the after methods by any others, faulting or not, leaves each test's result unchanged |
| TestRunnerProofs.SingleTestUsesOneInstance | hw06-annotations/src/main/java/ru/otus/homework/runner/TestRunner.java:90-101 | a test's trace starts by creating instance k and every step of it concerns instance k |
| TestRunner.ExecuteAllTests | hw06-annotations/src/main/java/ru/otus/homework/runner/TestRunner.java:72-81 | the run completes exactly when every construction succeeds, and then holds one result per test method |
| TestRunnerProofs.AllTestsRun | hw06-annotations/src/main/java/ru/otus/homework/runner/TestRunner.java:72-81 | when every construction succeeds there is exactly one result per test method, in plan order, named after it and equal to that test's own result; the run's trace is the tests' traces in order |
| TestRunnerProofs.ConstructionFaultAbortsRun | hw06-annotations/src/main/java/ru/otus/homework/runner/TestRunner.java:113-121 | if the k-th construction is the first to fail, the run throws a `TestExecutionException` "Не удалось создать экземпляр класса: <class>" whose cause is the construction fault, after exactly the earlier tests' steps and the failed attempt |
| TestRunnerProofs.NoTestAfterConstructionFault | hw06-annotations/src/main/java/ru/otus/homework/runner/TestRunner.java:90 | after a construction fault at test k the trace ends with that attempt and every earlier step concerns an instance below k |
| TestRunnerProofs.OnlyConstructionFaultsEscape | hw06-annotations/src/main/java/ru/otus/homework/runner/TestRunner.java:113-121 | whenever a run throws, some construction failed, and the fault thrown names the class and carries the first construction fault as its cause |
| TestRunnerProofs.RunnerFailuresCarryFault | hw06-annotations/src/main/java/ru/otus/homework/runner/TestRunner.java:96-107 | in every completed run each result has passed iff its exception is null: every failure the runner builds carries a fault |
| TestRunnerProofs.PassFlagsOfRun | hw06-annotations/src/main/java/ru/otus/homework/runner/TestRunner.java:72-108 | with every construction succeeding, the j-th result passes iff every before and the j-th test body return normally |
| TestRunner.CountPassed | hw06-annotations/src/main/java/ru/otus/homework/runner/TestRunner.java:190 | the count equals the number of `true` pass flags among the results and never exceeds their number |
| TestRunner.CalculateStatistics | hw06-annotations/src/main/java/ru/otus/homework/runner/TestRunner.java:188-194 | total is the number of results, passed the number of passing ones, failed the number of failing ones; total = passed + failed and 0 ≤ passed ≤ total |
| TestRunner.RunTests | hw06-annotations/src/main/java/ru/otus/homework/runner/TestRunner.java:37-47 | `runTests` returns statistics exactly when every construction succeeds, and then its total is the number of `@Test` methods; otherwise it throws the fault of the test loop; its steps are those of the test loop |
| TestRunnerProofs.RunTestsThrowsWrappedFault | hw06-annotations/src/main/java/ru/otus/homework/runner/TestRunner.java:37-47 | when `runTests` throws, some construction failed, and the fault is the `TestExecutionException` naming the class whose cause is the first construction fault |
| TestRunnerProofs.RunTestsStatistics | hw06-annotations/src/main/java/ru/otus/homework/runner/TestRunner.java:37-47 | with every construction succeeding, `runTests` counts one test per `@Test` method; with the fixed body outcomes of this model, the passed count is 0 when some before throws and otherwise the number of test bodies that return normally; the failed count is the rest |
| TestRunnerProofs.NoTestsNoWork | hw06-annotations/src/main/java/ru/otus/homework/runner/TestRunner.java:37-47 | a class without `@Test` methods creates no instance, invokes nothing, and reports 0/0/0 |
| Faults.TestExecutionException | hw06-annotations/src/main/java/ru/otus/homework/exception/TestExecutionException.java:8-10 | a `TestExecutionException` with the given message and no cause, which is therefore its own root cause |
| Faults.TestExecutionExceptionWithCause | hw06-annotations/src/main/java/ru/otus/homework/exception/TestExecutionException.java:12-14 | a `TestExecutionException` with the given message whose cause is the given fault, which is therefore its root cause |
| Faults.RootCause | hw06-annotations/src/main/java/ru/otus/homework/runner/TestRunner.java:180-183 | a fault without a cause is its own root cause; otherwise the root cause is its direct cause, which is a different fault |
| Faults.RootCauseUndoesInvocation | hw06-annotations/src/main/java/ru/otus/homework/runner/TestRunner.java:180-183 | the root cause of an invocation wrapper is exactly the fault the body threw, even when that fault has a cause of its own |
| Faults.RootCauseStopsAfterOneLevel | hw06-annotations/src/main/java/ru/otus/homework/runner/TestRunner.java:180-183 | the unwrapping goes one level only: a doubly wrapped fault yields the middle layer, not the innermost fault |
| TestModel.TestSuccess | hw06-annotations/src/main/java/ru/otus/homework/model/TestResult.java:9-11 | the result keeps the name verbatim, is passed, and has no exception |
| TestModel.TestFailure | hw06-annotations/src/main/java/ru/otus/homework/model/TestResult.java:13-15 | the result keeps the name and the (possibly null) exception verbatim and is not passed |
| TestModel.StatisticsToString | hw06-annotations/src/main/java/ru/otus/homework/model/TestStatistics.java:9-16 | the rendering is the four lines header, total, passed and failed joined by single newlines: no indentation and no trailing newline |
| TestModel.StatisticsLines | hw06-annotations/src/main/java/ru/otus/homework/model/TestStatistics.java:9-16 | the rendering splits at newlines into exactly four lines: "Статистика тестов:", "Всего тестов: <total>", "Успешно: <passed>", "Провалено: <failed>" |
| TestModel.StatisticsCountsAreDecimal | hw06-annotations/src/main/java/ru/otus/homework/model/TestStatistics.java:15 | each count appears as its decimal rendering, which reads back as the stored count |
| CustomerService.AsMap | hw04-generics/src/main/java/homework/CustomerService.java:11-14 | a sorted entry sequence stands for the map from each stored score to its entry: its keys are the stored scores, one entry per score |
| CustomerService.Empty | hw04-generics/src/main/java/homework/CustomerService.java:13-15 | a new service is a valid, empty map |
| CustomerService.Add | hw04-generics/src/main/java/homework/CustomerService.java:27-29 | the map stays sorted by score; afterwards the score maps to the new data, keeping the originally stored customer when the score was present, and every other score is unchanged |
| CustomerService.Put | hw04-generics/src/main/java/homework/CustomerService.java:27-29 | the `TreeMap.put` step: result sorted, its scores are the old ones plus the new one, and its map is the old map updated at that score only |
| CustomerService.DeepCopy | hw04-generics/src/main/java/homework/CustomerService.java:31-33 | the copy equals the original customer in id, name and scores |
| CustomerService.GetSmallest | hw04-generics/src/main/java/homework/CustomerService.java:17-20 | throws a `NullPointerException` fault iff the map is empty; otherwise returns an entry equal to the stored one whose score is the least |
| CustomerService.Higher | hw04-generics/src/main/java/homework/CustomerService.java:23 | the first stored entry scoring above the given score: none iff every stored score is at most it, otherwise a stored entry above it with the least such score |
| CustomerService.GetNext | hw04-generics/src/main/java/homework/CustomerService.java:22-25 | null iff no stored score exceeds the given customer's; otherwise an entry equal to the stored one with the least score strictly above it; the customer need not be stored |
| CustomerService.SmallestIsFirst | hw04-generics/src/main/java/homework/CustomerService.java:17-20 | on a non-empty map `getSmallest` returns the entry with the first (least) stored score |
| CustomerService.NextIsSuccessor | hw04-generics/src/main/java/homework/CustomerService.java:22-25 | on the customer of the i-th stored entry, `getNext` returns the next entry in ascending score order, or null after the last |
| CustomerService.Traverse | hw04-generics/src/main/java/homework/CustomerService.java:17-25 | calling `getSmallest` and then `getNext` until null visits every entry of the map exactly once, in strictly increasing score order |
| CustomerService.FollowNext | hw04-generics/src/main/java/homework/CustomerService.java:22-25 | the `getNext` loop started at the smallest entry collects exactly the stored entries, in order |
| LoggingProxy.SignatureEquals | hw10-byteCodes/src/main/java/ru/otus/aop/proxy/LoggingProxy.java:116-121 | two signatures are `equals` iff they have the same name and the same parameter types in the same order, so overloads are told apart |
| LoggingProxy.Contains | hw10-byteCodes/src/main/java/ru/otus/aop/proxy/LoggingProxy.java:72 | a lookup that answers through `equals` is exactly set membership |
| LoggingProxy.CollectLoggedMethods | hw10-byteCodes/src/main/java/ru/otus/aop/proxy/LoggingProxy.java:58-66 | the set holds exactly the signatures of the declared methods that carry `@Log` |
| LoggingProxy.Invoke | hw10-byteCodes/src/main/java/ru/otus/aop/proxy/LoggingProxy.java:69-77 | every call is forwarded exactly once, with the same method and arguments, as the last step, preceded by at most one log line; the call returns normally iff the target does, and then with the target's value |
| LoggingProxy.InvokeWrapsTargetFault | hw10-byteCodes/src/main/java/ru/otus/aop/proxy/LoggingProxy.java:76 | when the target throws, the call throws an `InvocationTargetException` whose cause, and so whose root cause, is the target's fault |
| LoggingProxy.InvokeLogsIffAnnotated | hw10-byteCodes/src/main/java/ru/otus/aop/proxy/LoggingProxy.java:69-77 | a call is logged iff some declared `@Log` method has its name and parameter types; the log line comes before the forwarding |
| LoggingProxy.Params | hw10-byteCodes/src/main/java/ru/otus/aop/proxy/LoggingProxy.java:86-92 | the params string is empty iff the argument array is null or empty; otherwise it starts with "param1: <first argument>" |
| LoggingProxy.LogLine | hw10-byteCodes/src/main/java/ru/otus/aop/proxy/LoggingProxy.java:82-99 | the line starts with "executed method: <name>", and is exactly that iff there are no arguments |
| LoggingProxy.LogLineWithArgs | hw10-byteCodes/src/main/java/ru/otus/aop/proxy/LoggingProxy.java:94-98 | with arguments the line is "executed method: <name>, " followed by the params string |
| LoggingProxy.ParamsOfOne | hw10-byteCodes/src/main/java/ru/otus/aop/proxy/LoggingProxy.java:89-91 | one argument renders as "param1: <arg>" |
| LoggingProxy.ParamsAppend | hw10-byteCodes/src/main/java/ru/otus/aop/proxy/LoggingProxy.java:89-91 | each further argument appends ", param<n>: <arg>" with its 1-based position, so the pieces follow argument order |

## Left out

- Reflection and dynamic proxies (`getDeclaredMethods`, `getDeclaredConstructor`, `setAccessible`, `Method.invoke`, `Proxy.newProxyInstance` in `createProxy`) are foreign calls. They are replaced by the declared-method sequence, the body outcomes, the `factory` and the `target` function.
- `IllegalAccessException` from `executeMethod` is not modelled: `setAccessible(true)` precedes every invocation.
- The `Exception`/`Error` distinction of the catch blocks is not modelled. Every fault of a body is treated as caught. `Method.invoke` wraps any throwable of a body in an `InvocationTargetException`, which is an `Exception`. `Constructor.newInstance` does the same for the constructor body, and `factory` gives what the `try` at `TestRunner.java:114-117` throws: the `NoSuchMethodException` of `getDeclaredConstructor`, a failure of `setAccessible`, or what `newInstance` throws. A failing static initialiser is not modelled. It makes the first `newInstance` throw an `ExceptionInInitializerError`, which escapes `createTestInstance` unwrapped.
- SLF4J logging in the runner is I/O: the error lines of the stages and `printResults`, including its "Unknown error" text for a null exception. The proxy's log line is modelled as a `Logged` event.
- Subject bodies have a fixed outcome that does not depend on the instance's state or on earlier calls. Bodies that never return are not modelled.
- TestRunnerProofs.RunTestsStatistics: its pass counts ("0 when some before throws, otherwise the number of test bodies that return") hold because of those fixed outcomes. In Java a before method may throw for one instance and not for another, so the promise there is only the per-test verdict of `TestRunnerProofs.SingleTestVerdict`.
- The message of an `InvocationTargetException` is null in Java; the empty string stands for it. In the runner it is never observed, because `RootCause` removes that wrapper. `LoggingProxy.Invoke` returns the wrapper itself, and there the empty message stands for Java's null.
- `MethodSignature.hashCode` is left out. Set lookup is modelled through `equals`, which assumes a hash code consistent with it.
- TestModel.StatisticsToString: the counts are rendered with the ASCII digits and '-'. That is what `formatted` produces under a default format locale whose zero digit is '0'. Under other locales Java substitutes that locale's digits, and the model does not cover this.
- Java `int` and `long` are unbounded integers here. The counts of `calculateStatistics` cannot reach 2^31 for a list of results.
- LoggingProxy.Invoke: arguments reach the handler already rendered by `String.valueOf`, and classes are identified by name. An argument whose `toString` throws while the log line is built (`LoggingProxy.java:90`) therefore cannot be expressed. In Java that fault escapes `invoke`, and the call is never forwarded.
- LoggingProxy.InvokeWrapsTargetFault: the model stops at the handler. The proxy object built by `createProxy` rethrows the handler's checked `InvocationTargetException` as an `UndeclaredThrowableException` when the interface method declares no checked exception. That step belongs to `Proxy` and is not modelled.
- `CustomerService` values are immutable. The defensive copies of `getSmallest` and `getNext` therefore show up only as returned entries equal to the stored ones. The getters cannot change the map, because they return no new map. For a new score, `add` stores the caller's own `Customer` object; for a score already present, `TreeMap.put` keeps the stored key and replaces only the data, as `CustomerService.PutEntry` does. Java callers who later change that object's scores can break the tree's order. The model has no aliasing, so it does not cover this.
- CustomerService.GetSmallest: the data strings are never null here. Java's `add` accepts null data, and then `Map.entry` throws a `NullPointerException` in `getSmallest` when the smallest entry holds null (`CustomerService.java:19`). The model returns that entry instead.
- CustomerService.GetNext: the same holds for null data on the next entry (`CustomerService.java:24`). A null customer is not modelled either: it makes `add` throw a `NullPointerException`, and `getNext` too on a non-empty map. On an empty map `higherEntry(null)` never calls the comparator, so `getNext(null)` returns null.
- `Customer.java` is not part of this model. A customer is taken to be a value with `id`, `name` and `scores`, as its three-argument constructor suggests.
- `Main.java` (exit status), `ExampleTest.java`, `Demo.java` and `TestLogging.java` are demo and subject code. The annotation declarations are the `Marker` and `logAnnotated` data.

=== FILE: customer_service.dfy ===
/** `CustomerService`: a `TreeMap` from customers to data strings whose
    comparator looks only at the scores. It is represented by its entries in
    ascending score order, with no two entries sharing a score; `AsMap` is the
    map from each stored score to its entry. */
module CustomerService {
  import opened Wrappers
  import opened Faults

  /** The customer value: id, name and scores. The scores are a Java `long`
      (the comparator uses `comparingLong`); the other two fields are only
      copied, never inspected. */
  datatype Customer = Customer(id: int, name: string, scores: int)

  /** A map entry: the stored customer key and its data string. */
  datatype Entry = Entry(key: Customer, value: string)

  datatype Service = Service(entries: seq<Entry>)

  /** The fault of dereferencing null. Java's message text for it is not
      modelled; the empty string stands for it. */
  const NullPointerException := Fault(NullPointerExceptionKind, "", None)

  /** The tree map's ordering: ascending scores, at most one entry per score. */
  predicate SortedByScore(es: seq<Entry>) {
    forall i, j :: 0 <= i < j < |es| ==> es[i].key.scores < es[j].key.scores
  }

  predicate Valid(s: Service) {
    SortedByScore(s.entries)
  }

  function Scores(es: seq<Entry>): set<int> {
    set i | 0 <= i < |es| :: es[i].key.scores
  }

  /** The map a service stands for: each stored score to the entry holding it. */
  function AsMap(es: seq<Entry>): (m: map<int, Entry>)
    requires SortedByScore(es)
    ensures m.Keys == Scores(es)
    ensures forall i :: 0 <= i < |es| ==> m[es[i].key.scores] == es[i]
    decreases |es|
  {
    if |es| == 0 then map[]
    else
      var rest := AsMap(es[1..]);
      assert Scores(es) == Scores(es[1..]) + {es[0].key.scores} by {
        assert forall i :: 1 <= i < |es| ==> es[i] == es[1..][i - 1];
        assert forall i :: 0 <= i < |es[1..]| ==> es[1..][i] == es[i + 1];
      }
      assert forall i :: 1 <= i < |es| ==> es[i] == es[1..][i - 1];
      rest[es[0].key.scores := es[0]]
  }

  /** `new CustomerService()`: the empty map. */
  function Empty(): (s: Service)
    ensures Valid(s) && AsMap(s.entries) == map[]
  {
    Service([])
  }

  /** `deepCopy`: a new customer with the same id, name and scores. As values
      cannot be mutated here, the copy is simply equal to the original. */
  function DeepCopy(c: Customer): (copy: Customer)
    ensures copy == c
  {
    Customer(c.id, c.name, c.scores)
  }

  /** The entry `put` leaves at `c`'s score in the map `m`: the new data, under
      the customer already stored for that score if there is one (a tree map
      keeps its original key on replacement), and under `c` otherwise. */
  function PutEntry(m: map<int, Entry>, c: Customer, data: string): Entry {
    Entry(if c.scores in m then m[c.scores].key else c, data)
  }

  /** `TreeMap.put` with the score comparator. */
  function Put(es: seq<Entry>, c: Customer, data: string): (r: seq<Entry>)
    requires SortedByScore(es)
    ensures SortedByScore(r)
    ensures Scores(r) == Scores(es) + {c.scores}
    ensures AsMap(r) == AsMap(es)[c.scores := PutEntry(AsMap(es), c, data)]
    decreases |es|
  {
    if |es| == 0 || c.scores < es[0].key.scores then
      PutInFront(es, c, data);
      [Entry(c, data)] + es
    else if c.scores == es[0].key.scores then
      PutOverHead(es, c, data);
      [Entry(es[0].key, data)] + es[1..]
    else
      var rest := Put(es[1..], c, data);
      PutAfterHead(es, c, data, rest);
      [es[0]] + rest
  }

  lemma ScoresCons(e: Entry, es: seq<Entry>)
    ensures Scores([e] + es) == {e.key.scores} + Scores(es)
  {
    var r := [e] + es;
    assert r[0] == e;
    assert forall i :: 1 <= i < |r| ==> r[i] == es[i - 1];
    assert forall i :: 0 <= i < |es| ==> es[i] == r[i + 1];
  }

  lemma AsMapCons(es: seq<Entry>)
    requires 1 <= |es| && SortedByScore(es)
    ensures SortedByScore(es[1..])
    ensures es[0].key.scores !in Scores(es[1..])
    ensures AsMap(es) == AsMap(es[1..])[es[0].key.scores := es[0]]
  {
    var tail := es[1..];
    assert forall i :: 0 <= i < |tail| ==> tail[i] == es[i + 1];
  }

  lemma PutInFront(es: seq<Entry>, c: Customer, data: string)
    requires SortedByScore(es)
    requires |es| == 0 || c.scores < es[0].key.scores
    ensures var r := [Entry(c, data)] + es;
      && SortedByScore(r)
      && Scores(r) == Scores(es) + {c.scores}
      && c.scores !in AsMap(es)
      && AsMap(r) == AsMap(es)[c.scores := Entry(c, data)]
  {
    var r := [Entry(c, data)] + es;
    ScoresCons(Entry(c, data), es);
    assert r[1..] == es;
    AsMapCons(r);
  }

  lemma PutOverHead(es: seq<Entry>, c: Customer, data: string)
    requires SortedByScore(es)
    requires |es| > 0 && c.scores == es[0].key.scores
    ensures var r := [Entry(es[0].key, data)] + es[1..];
      && SortedByScore(r)
      && Scores(r) == Scores(es) + {c.scores}
      && c.scores in AsMap(es) && AsMap(es)[c.scores].key == es[0].key
      && AsMap(r) == AsMap(es)[c.scores := Entry(es[0].key, data)]
  {
    var r := [Entry(es[0].key, data)] + es[1..];
    assert r[1..] == es[1..];
    assert SortedByScore(r) by {
      assert forall i :: 1 <= i < |r| ==> r[i] == es[i];
    }
    ScoresCons(Entry(es[0].key, data), es[1..]);
    ScoresCons(es[0], es[1..]);
    assert es == [es[0]] + es[1..];
    AsMapCons(es);
    AsMapCons(r);
    var m1 := AsMap(es[1..]);
    assert AsMap(es) == m1[c.scores := es[0]];
    assert AsMap(r) == m1[c.scores := Entry(es[0].key, data)];
    UpdateTwice(m1, c.scores, es[0], Entry(es[0].key, data));
  }

  lemma UpdateTwice<K, V>(m: map<K, V>, a: K, x: V, y: V)
    ensures m[a := x][a := y] == m[a := y]
  {
  }

  lemma PutAfterHead(es: seq<Entry>, c: Customer, data: string, rest: seq<Entry>)
    requires SortedByScore(es)
    requires |es| > 0 && es[0].key.scores < c.scores
    requires SortedByScore(es[1..])
    requires SortedByScore(rest)
    requires Scores(rest) == Scores(es[1..]) + {c.scores}
    requires AsMap(rest) == AsMap(es[1..])[c.scores := PutEntry(AsMap(es[1..]), c, data)]
    ensures var r := [es[0]] + rest;
      && SortedByScore(r)
      && Scores(r) == Scores(es) + {c.scores}
      && AsMap(r) == AsMap(es)[c.scores := PutEntry(AsMap(es), c, data)]
  {
    KeepsHeadFirst(es, c, rest);
    ScoresCons(es[0], rest);
    ScoresCons(es[0], es[1..]);
    assert es == [es[0]] + es[1..];
    AfterHeadMap(es, c, data, rest);
  }

  /** The map part of `PutAfterHead`: the head's update commutes with the one
      made behind it, and does not change which customer `put` keeps. */
  lemma AfterHeadMap(es: seq<Entry>, c: Customer, data: string, rest: seq<Entry>)
    requires SortedByScore(es)
    requires |es| > 0 && es[0].key.scores < c.scores
    requires SortedByScore(rest) && SortedByScore([es[0]] + rest)
    requires AsMap(rest) == AsMap(es[1..])[c.scores := PutEntry(AsMap(es[1..]), c, data)]
    ensures AsMap([es[0]] + rest) == AsMap(es)[c.scores := PutEntry(AsMap(es), c, data)]
  {
    var r := [es[0]] + rest;
    var m1 := AsMap(es[1..]);
    var s0 := es[0].key.scores;
    AsMapCons(es);
    AsMapCons(r);
    assert r[1..] == rest;
    assert PutEntry(m1[s0 := es[0]], c, data) == PutEntry(m1, c, data);
    UpdatesCommute(m1, c.scores, PutEntry(m1, c, data), s0, es[0]);
  }

  lemma UpdatesCommute<K, V>(m: map<K, V>, a: K, x: V, b: K, y: V)
    requires a != b
    ensures m[a := x][b := y] == m[b := y][a := x]
  {
  }

  /** Every score put behind the head stays above the head's score. */
  lemma KeepsHeadFirst(es: seq<Entry>, c: Customer, rest: seq<Entry>)
    requires SortedByScore(es)
    requires |es| > 0 && es[0].key.scores < c.scores
    requires SortedByScore(rest)
    requires Scores(rest) == Scores(es[1..]) + {c.scores}
    ensures SortedByScore([es[0]] + rest)
  {
    var r := [es[0]] + rest;
    forall i | 0 <= i < |rest|
      ensures es[0].key.scores < rest[i].key.scores
    {
      assert rest[i].key.scores in Scores(rest);
      if rest[i].key.scores != c.scores {
        var j :| 0 <= j < |es[1..]| && es[1..][j].key.scores == rest[i].key.scores;
        assert es[1..][j] == es[j + 1];
      }
    }
    assert forall i :: 1 <= i < |r| ==> r[i] == rest[i - 1];
  }

  /** `add`: a new score gets a new entry; for a score already present the data
      is replaced while the originally stored customer stays the key. */
  function Add(s: Service, c: Customer, data: string): (r: Service)
    requires Valid(s)
    ensures Valid(r)
    ensures AsMap(r.entries) == AsMap(s.entries)[c.scores := PutEntry(AsMap(s.entries), c, data)]
  {
    Service(Put(s.entries, c, data))
  }

  /** `getSmallest`: a copy of the entry with the least score; on the empty map
      `firstEntry()` is null and dereferencing it throws. */
  function GetSmallest(s: Service): (r: Result<Entry, Fault>)
    requires Valid(s)
    ensures r.Failure? <==> AsMap(s.entries) == map[]
    ensures r.Failure? ==> r.error == NullPointerException
    ensures r.Success? ==> var k := r.value.key.scores;
      && k in AsMap(s.entries)
      && AsMap(s.entries)[k] == r.value
      && forall other :: other in AsMap(s.entries) ==> k <= other
  {
    if |s.entries| == 0 then Failure(NullPointerException)
    else
      var first := s.entries[0];
      assert first.key.scores in AsMap(s.entries);
      assert forall other :: other in Scores(s.entries) ==> first.key.scores <= other;
      Success(Entry(DeepCopy(first.key), first.value))
  }

  /** The first entry scoring above `score`, which in a sorted sequence is the
      one with the least such score. */
  function Higher(es: seq<Entry>, score: int): (r: Option<Entry>)
    requires SortedByScore(es)
    ensures r.None? <==> forall i :: 0 <= i < |es| ==> es[i].key.scores <= score
    ensures r.Some? ==> r.value in es && score < r.value.key.scores
    ensures r.Some? ==> forall i :: 0 <= i < |es| && score < es[i].key.scores ==>
                          r.value.key.scores <= es[i].key.scores
    decreases |es|
  {
    if |es| == 0 then None
    else if score < es[0].key.scores then Some(es[0])
    else
      assert forall i :: 1 <= i < |es| ==> es[i] == es[1..][i - 1];
      Higher(es[1..], score)
  }

  /** `getNext`: a copy of the entry with the least score strictly above the
      given customer's score (which need not be stored), or null when there is none. */
  function GetNext(s: Service, c: Customer): (r: Option<Entry>)
    requires Valid(s)
    ensures r.None? <==> forall other :: other in AsMap(s.entries) ==> other <= c.scores
    ensures r.Some? ==> var k := r.value.key.scores;
      && k in AsMap(s.entries)
      && AsMap(s.entries)[k] == r.value
      && c.scores < k
      && forall other :: other in AsMap(s.entries) && c.scores < other ==> k <= other
  {
    match Higher(s.entries, c.scores)
    case None => None
    case Some(e) =>
      assert e.key.scores in Scores(s.entries) by {
        var i :| 0 <= i < |s.entries| && s.entries[i] == e;
      }
      assert e.key.scores in AsMap(s.entries);
      Some(Entry(DeepCopy(e.key), e.value))
  }

  /** On a non-empty service `getSmallest` returns the first stored entry. */
  lemma SmallestIsFirst(s: Service)
    requires Valid(s) && 0 < |s.entries|
    ensures GetSmallest(s) == Success(s.entries[0])
  {
    var es := s.entries;
    var first := GetSmallest(s).value;
    var j :| 0 <= j < |es| && es[j].key.scores == first.key.scores;
    assert AsMap(es)[es[j].key.scores] == es[j];
  }

  /** On the key of the i-th stored entry `getNext` returns the (i+1)-th entry,
      or null after the last one. */
  lemma NextIsSuccessor(s: Service, i: nat)
    requires Valid(s) && i < |s.entries|
    ensures GetNext(s, s.entries[i].key)
         == if i + 1 < |s.entries| then Some(s.entries[i + 1]) else None
  {
    var es := s.entries;
    var m := AsMap(es);
    var next := GetNext(s, es[i].key);
    if i + 1 < |es| {
      assert es[i + 1].key.scores in m;
      var k :| 0 <= k < |es| && es[k].key.scores == next.value.key.scores;
      assert m[es[k].key.scores] == es[k];
      assert k == i + 1;
    } else {
      assert forall other :: other in m ==> other <= es[i].key.scores by {
        forall other | other in m
          ensures other <= es[i].key.scores
        {
          var k :| 0 <= k < |es| && es[k].key.scores == other;
        }
      }
    }
  }

  /** `visited` lists each entry of the map `m` exactly once, in strictly
      ascending score order. */
  predicate ListsInOrder(visited: seq<Entry>, m: map<int, Entry>) {
    && (forall i, j :: 0 <= i < j < |visited| ==> visited[i].key.scores < visited[j].key.scores)
    && (forall i :: 0 <= i < |visited| ==>
          visited[i].key.scores in m && m[visited[i].key.scores] == visited[i])
    && (forall k :: k in m ==> exists i :: 0 <= i < |visited| && visited[i].key.scores == k)
  }

  /** A client's walk over the map: `getSmallest`, then `getNext` on each key
      returned, until null. It meets every entry exactly once, in ascending
      score order. */
  method Traverse(s: Service) returns (visited: seq<Entry>)
    requires Valid(s)
    ensures ListsInOrder(visited, AsMap(s.entries))
  {
    EntriesListInOrder(s);
    if |s.entries| > 0 {
      SmallestIsFirst(s);
    }
    var smallest := GetSmallest(s);
    if smallest.Failure? {
      return [];
    }
    visited := FollowNext(s, smallest.value);
  }

  /** The `getNext` loop of a walk started at the smallest entry: it collects
      the stored entries in their sorted order. */
  method FollowNext(s: Service, first: Entry) returns (visited: seq<Entry>)
    requires Valid(s) && 0 < |s.entries| && first == s.entries[0]
    ensures visited == s.entries
  {
    visited := [first];
    assert visited == s.entries[..1];
    NextIsSuccessor(s, 0);
    var next := GetNext(s, first.key);
    while next.Some?
      invariant 1 <= |visited| <= |s.entries|
      invariant visited == s.entries[..|visited|]
      invariant next == if |visited| < |s.entries| then Some(s.entries[|visited|]) else None
      decreases |s.entries| - |visited|
    {
      var n := |visited|;
      var e := next.value;
      NextIsSuccessor(s, n);
      TakeOneMore(s.entries, n);
      visited := visited + [e];
      next := GetNext(s, e.key);
    }
  }

  lemma TakeOneMore<T>(xs: seq<T>, n: nat)
    requires n < |xs|
    ensures xs[..n + 1] == xs[..n] + [xs[n]]
  {
  }

  /** The sorted entries list every entry of the map once, in ascending score order. */
  lemma EntriesListInOrder(s: Service)
    requires Valid(s)
    ensures ListsInOrder(s.entries, AsMap(s.entries))
  {
  }
}

=== FILE: faults.dfy ===
/** Java throwables as plain values: the exception class, the message and an optional cause. */
module Faults {
  import opened Wrappers

  datatype Fault = Fault(kind: string, message: string, cause: Option<Fault>)

  const TestExecutionExceptionKind := "ru.otus.homework.exception.TestExecutionException"
  const InvocationTargetExceptionKind := "java.lang.reflect.InvocationTargetException"
  const NullPointerExceptionKind := "java.lang.NullPointerException"

  /** `new TestExecutionException(message)`: a fresh fault without a cause, so
      it is its own root cause. */
  function TestExecutionException(message: string): (f: Fault)
    ensures f.kind == TestExecutionExceptionKind && f.message == message && f.cause == None
    ensures RootCause(f) == f
  {
    Fault(TestExecutionExceptionKind, message, None)
  }

  /** `new TestExecutionException(message, cause)`: `getCause` gives back the
      wrapped fault, so the root cause is exactly `cause`. */
  function TestExecutionExceptionWithCause(message: string, cause: Fault): (f: Fault)
    ensures f.kind == TestExecutionExceptionKind && f.message == message && f.cause == Some(cause)
    ensures RootCause(f) == cause
  {
    Fault(TestExecutionExceptionKind, message, Some(cause))
  }

  /** What `Method.invoke` throws when the invoked body throws `target`: an
      `InvocationTargetException` whose cause is `target`. Its Java message is
      null; the empty string stands for it here. */
  function InvocationTargetException(target: Fault): Fault
  {
    Fault(InvocationTargetExceptionKind, "", Some(target))
  }

  /** `getRootCause`: the cause when there is one, otherwise the fault itself. */
  function RootCause(f: Fault): (root: Fault)
    ensures f.cause.None? ==> root == f
    ensures f.cause.Some? ==> Some(root) == f.cause && root != f
  {
    match f.cause
    case Some(c) => c
    case None => f
  }

  /** The unwrapping goes exactly one level down: the fault a body threw comes back
      unchanged from its invocation wrapper, even when it has causes of its own. */
  lemma RootCauseUndoesInvocation(target: Fault)
    ensures RootCause(InvocationTargetException(target)) == target
  {
  }

  /** ... so a doubly wrapped fault yields the middle layer, never the innermost one. */
  lemma RootCauseStopsAfterOneLevel(inner: Fault)
    ensures RootCause(InvocationTargetException(InvocationTargetException(inner))) != inner
    ensures RootCause(InvocationTargetException(InvocationTargetException(inner)))
            == InvocationTargetException(inner)
  {
  }
}

=== FILE: logging_proxy.dfy ===
/** The invocation handler behind `LoggingProxy.createProxy`: it logs calls to the
    methods the target class marks with `@Log` and forwards every call to the
    target. Reflection and the SLF4J logger are replaced by data: a method is
    its name, parameter types and whether it carries `@Log`; the call's
    arguments arrive already rendered by `String.valueOf`; the target is a
    function from the call to what it returns or throws; logging is an event
    in the trace. */
module LoggingProxy {
  import opened Wrappers
  import opened Faults
  import Text

  /** A Java class, identified by its name. */
  type ClassName = string

  /** A method as reflection describes it. */
  datatype JavaMethod = JavaMethod(name: string, parameterTypes: seq<ClassName>, logAnnotated: bool)

  /** `MethodSignature`: a method's name and parameter types. */
  datatype MethodSignature = MethodSignature(name: string, parameterTypes: seq<ClassName>)

  /** The handler's state: the signatures of the target's `@Log` methods. */
  datatype Handler = Handler(loggedMethods: set<MethodSignature>)

  /** A step of the handler: writing a log line, or forwarding the call. */
  datatype ProxyEvent = Logged(line: string) | Forwarded(invoked: JavaMethod, args: Option<seq<string>>)

  /** What one call through the handler does, and what it returns or throws. */
  datatype Invocation<R> = Invocation(events: seq<ProxyEvent>, result: Result<R, Fault>)

  const LogPrefix := "executed method: "

  function SignatureOf(m: JavaMethod): MethodSignature {
    MethodSignature(m.name, m.parameterTypes)
  }

  /** `Arrays.equals` on two parameter-type arrays: same length, equal elements. */
  predicate ArraysEqual(a: seq<ClassName>, b: seq<ClassName>) {
    |a| == |b| && forall i :: 0 <= i < |a| ==> a[i] == b[i]
  }

  /** `MethodSignature.equals`: the same name and `Arrays.equals` parameter
      types. This is value equality, so overloads with different parameter
      lists are told apart. */
  function SignatureEquals(a: MethodSignature, b: MethodSignature): (eq: bool)
    ensures eq <==> a == b
  {
    var same := a.name == b.name && ArraysEqual(a.parameterTypes, b.parameterTypes);
    assert same ==> a.parameterTypes == b.parameterTypes;
    same
  }

  /** `HashSet.contains`, which answers through `equals`; hence it is plain
      set membership. */
  function Contains(signatures: set<MethodSignature>, s: MethodSignature): (found: bool)
    ensures found <==> s in signatures
  {
    exists t :: t in signatures && SignatureEquals(t, s)
  }

  /** `signatures` holds exactly the signatures of the `@Log` methods in `declared`. */
  ghost predicate CollectsLogged(signatures: set<MethodSignature>, declared: seq<JavaMethod>) {
    forall s :: s in signatures <==> exists i :: 0 <= i < |declared| && declared[i].logAnnotated && SignatureOf(declared[i]) == s
  }

  /** `collectLoggedMethods`: the signatures of the declared methods carrying `@Log`. */
  method CollectLoggedMethods(declared: seq<JavaMethod>) returns (methods: set<MethodSignature>)
    ensures CollectsLogged(methods, declared)
  {
    methods := {};
    for i := 0 to |declared|
      invariant forall s :: s in methods <==>
                  exists j :: 0 <= j < i && declared[j].logAnnotated && SignatureOf(declared[j]) == s
    {
      if declared[i].logAnnotated {
        methods := methods + {SignatureOf(declared[i])};
      }
    }
  }

  /** The piece `param<n>: <arg>`. */
  function ParamPiece(n: nat, arg: string): string {
    "param" + Text.NatToDecimal(n) + ": " + arg
  }

  /** The pieces for all arguments, numbered from 1. */
  function ParamParts(args: seq<string>): (parts: seq<string>)
    ensures |parts| == |args|
  {
    seq(|args|, i requires 0 <= i < |args| => ParamPiece(i + 1, args[i]))
  }

  /** The params string of `logMethodCall`: empty for a null or empty argument
      array, otherwise the pieces joined with ", ". */
  function Params(args: Option<seq<string>>): (params: string)
    ensures |params| == 0 <==> args.None? || |args.value| == 0
    ensures args.Some? && 0 < |args.value| ==>
      var first := ParamPiece(1, args.value[0]);
      |first| <= |params| && params[..|first|] == first
  {
    match args
    case None => ""
    case Some(a) =>
      if |a| == 0 then ""
      else
        var parts := ParamParts(a);
        JoinStartsWithFirst(", ", parts);
        Text.Join(", ", parts)
  }

  /** The line `logMethodCall` writes: the prefix and the method name, followed
      by ", " and the params string only when there are arguments. */
  function LogLine(name: string, args: Option<seq<string>>): (line: string)
    ensures |LogPrefix + name| <= |line| && line[..|LogPrefix + name|] == LogPrefix + name
    ensures line == LogPrefix + name <==> args.None? || |args.value| == 0
  {
    var params := Params(args);
    if |params| == 0 then LogPrefix + name else LogPrefix + name + ", " + params
  }

  /** `invoke`: log when the called signature is one of the `@Log` ones, then
      forward the same method and arguments to the target through
      `Method.invoke`, which returns what the target returns and wraps what it
      throws in an `InvocationTargetException`. */
  function Invoke<R>(h: Handler, invoked: JavaMethod, args: Option<seq<string>>,
                     target: (JavaMethod, Option<seq<string>>) -> Result<R, Fault>): (inv: Invocation<R>)
    ensures 1 <= |inv.events| <= 2 && inv.events[|inv.events| - 1] == Forwarded(invoked, args)
    ensures forall j :: 0 <= j < |inv.events| - 1 ==> inv.events[j].Logged?
    ensures inv.result.Success? <==> target(invoked, args).Success?
    ensures inv.result.Success? ==> inv.result.value == target(invoked, args).value
  {
    var log := if Contains(h.loggedMethods, SignatureOf(invoked)) then [Logged(LogLine(invoked.name, args))] else [];
    var result := match target(invoked, args)
      case Success(v) => Success(v)
      case Failure(f) => Failure(InvocationTargetException(f));
    Invocation(log + [Forwarded(invoked, args)], result)
  }

  /* ---------------- properties ---------------- */

  /** A fault of the target reaches the caller as an `InvocationTargetException`
      whose cause, and so whose root cause, is exactly that fault. */
  lemma InvokeWrapsTargetFault<R>(h: Handler, invoked: JavaMethod, args: Option<seq<string>>,
                                  target: (JavaMethod, Option<seq<string>>) -> Result<R, Fault>)
    requires target(invoked, args).Failure?
    ensures var inv := Invoke(h, invoked, args, target);
      && inv.result.Failure?
      && inv.result.error.kind == InvocationTargetExceptionKind
      && inv.result.error.cause == Some(target(invoked, args).error)
      && RootCause(inv.result.error) == target(invoked, args).error
  {
  }

  /** With the handler built from the target class's declared methods, a call is
      logged, before it is forwarded, exactly when some declared `@Log` method
      has the called name and the same parameter types. */
  lemma InvokeLogsIffAnnotated<R>(h: Handler, declared: seq<JavaMethod>, invoked: JavaMethod,
                                  args: Option<seq<string>>, target: (JavaMethod, Option<seq<string>>) -> Result<R, Fault>)
    requires CollectsLogged(h.loggedMethods, declared)
    ensures var inv := Invoke(h, invoked, args, target);
      && (inv.events[0].Logged? <==>
            exists i :: 0 <= i < |declared| && declared[i].logAnnotated
                     && declared[i].name == invoked.name
                     && declared[i].parameterTypes == invoked.parameterTypes)
      && (inv.events[0].Logged? ==> inv.events == [Logged(LogLine(invoked.name, args)), Forwarded(invoked, args)])
      && (!inv.events[0].Logged? ==> inv.events == [Forwarded(invoked, args)])
  {
    var sig := SignatureOf(invoked);
    if sig in h.loggedMethods {
      var i :| 0 <= i < |declared| && declared[i].logAnnotated && SignatureOf(declared[i]) == sig;
    }
  }

  /** With arguments the line is the prefix, the name, ", " and the params string. */
  lemma LogLineWithArgs(name: string, args: seq<string>)
    requires |args| > 0
    ensures LogLine(name, Some(args)) == "executed method: " + name + ", " + Params(Some(args))
  {
  }

  /** One argument renders as `param1: <arg>`. */
  lemma ParamsOfOne(a: string)
    ensures Params(Some([a])) == "param1: " + a
  {
    assert Text.NatToDecimal(1) == "1";
  }

  /** Each further argument appends `, param<n>: <arg>`, with n its 1-based
      position: the pieces appear in argument order. */
  lemma ParamsAppend(args: seq<string>, a: string)
    requires |args| > 0
    ensures Params(Some(args + [a])) == Params(Some(args)) + ", " + ParamPiece(|args| + 1, a)
  {
    ParamPartsAppend(args, a);
    JoinAppend(", ", ParamParts(args), ParamPiece(|args| + 1, a));
  }

  lemma ParamPartsAppend(args: seq<string>, a: string)
    ensures ParamParts(args + [a]) == ParamParts(args) + [ParamPiece(|args| + 1, a)]
  {
    var longer := ParamParts(args + [a]);
    var parts := ParamParts(args);
    forall i | 0 <= i < |args|
      ensures longer[i] == parts[i]
    {
      assert (args + [a])[i] == args[i];
    }
  }

  lemma JoinStartsWithFirst(sep: string, parts: seq<string>)
    requires |parts| > 0
    ensures |Text.Join(sep, parts)| >= |parts[0]|
    ensures Text.Join(sep, parts)[..|parts[0]|] == parts[0]
  {
  }

  lemma {:induction false} JoinAppend(sep: string, parts: seq<string>, p: string)
    requires |parts| > 0
    ensures Text.Join(sep, parts + [p]) == Text.Join(sep, parts) + sep + p
    decreases |parts|
  {
    if |parts| == 1 {
      assert (parts + [p])[1..] == [p];
    } else {
      assert (parts + [p])[1..] == parts[1..] + [p];
      JoinAppend(sep, parts[1..], p);
    }
  }
}

=== FILE: test_model.dfy ===
/** The records the test runner passes around: the markers, the subject's methods,
    the execution plan (`TestClassContext`), per-test results and statistics. */
module TestModel {
  import opened Wrappers
  import opened Faults
  import Text

  /** The three annotations `@Before`, `@Test` and `@After`. */
  datatype Marker = Before | Test | After

  /** What a subject method's body does when invoked: return normally or throw. */
  datatype Outcome = Ok | Throws(fault: Fault)

  /** One declared method of the subject class: its name, the markers it carries
      and how its body ends. */
  datatype MethodEntry = MethodEntry(name: string, markers: set<Marker>, body: Outcome)

  /** The subject class as the runner sees it: its name and its declared methods,
      in the order reflection reports them. */
  datatype TestClass = TestClass(name: string, declaredMethods: seq<MethodEntry>)

  /** The execution plan: the class and its before, test and after groups. */
  datatype TestClassContext = TestClassContext(
    testClass: TestClass,
    beforeMethods: seq<MethodEntry>,
    testMethods: seq<MethodEntry>,
    afterMethods: seq<MethodEntry>)

  /** The outcome of one test; `exception == None` is Java's null. */
  datatype TestResult = TestResult(testName: string, passed: bool, exception: Option<Fault>)

  /** `TestResult.success`. */
  function TestSuccess(testName: string): (r: TestResult)
    ensures r.testName == testName && r.passed && r.exception == None
  {
    TestResult(testName, true, None)
  }

  /** `TestResult.failure`; Java lets the exception be null, so it is optional here too. */
  function TestFailure(testName: string, exception: Option<Fault>): (r: TestResult)
    ensures r.testName == testName && !r.passed && r.exception == exception
  {
    TestResult(testName, false, exception)
  }

  /** The statistics record keeps the three counts exactly as given and checks nothing. */
  datatype TestStatistics = TestStatistics(totalTests: int, passedTests: int, failedTests: int)

  const StatisticsHeader := "Статистика тестов:"
  const TotalLabel := "Всего тестов: "
  const PassedLabel := "Успешно: "
  const FailedLabel := "Провалено: "

  /** `TestStatistics.toString`: the text block with its incidental indentation
      removed, no trailing newline, and each `%d` replaced by the decimal count. */
  function StatisticsToString(s: TestStatistics): (text: string)
    ensures text == Text.Join("\n", StatisticsLineList(s))
  {
    var total := TotalLabel + Text.IntToDecimal(s.totalTests);
    var passed := PassedLabel + Text.IntToDecimal(s.passedTests);
    var failed := FailedLabel + Text.IntToDecimal(s.failedTests);
    Text.JoinFour("\n", StatisticsHeader, total, passed, failed);
    StatisticsHeader + "\n" + (total + "\n" + (passed + "\n" + failed))
  }

  /** The four lines of the rendering: the header, then each label followed by its count. */
  function StatisticsLineList(s: TestStatistics): seq<string> {
    [StatisticsHeader,
     TotalLabel + Text.IntToDecimal(s.totalTests),
     PassedLabel + Text.IntToDecimal(s.passedTests),
     FailedLabel + Text.IntToDecimal(s.failedTests)]
  }

  /** Splitting the rendering at its newlines gives back exactly the four lines. */
  lemma StatisticsLines(s: TestStatistics)
    ensures Text.Split(StatisticsToString(s), '\n') == [
      StatisticsHeader,
      TotalLabel + Text.IntToDecimal(s.totalTests),
      PassedLabel + Text.IntToDecimal(s.passedTests),
      FailedLabel + Text.IntToDecimal(s.failedTests)]
  {
    var lines := StatisticsLineList(s);
    NoNewlineInDecimal(s.totalTests);
    NoNewlineInDecimal(s.passedTests);
    NoNewlineInDecimal(s.failedTests);
    assert forall k :: 0 <= k < |lines| ==> '\n' !in lines[k];
    Text.SplitJoin(lines, '\n');
  }

  /** Each count in the rendering reads back as the stored count. */
  lemma StatisticsCountsAreDecimal(s: TestStatistics)
    ensures Text.ParseInt(Text.IntToDecimal(s.totalTests)) == s.totalTests
    ensures Text.ParseInt(Text.IntToDecimal(s.passedTests)) == s.passedTests
    ensures Text.ParseInt(Text.IntToDecimal(s.failedTests)) == s.failedTests
  {
    Text.IntToDecimalRoundTrip(s.totalTests);
    Text.IntToDecimalRoundTrip(s.passedTests);
    Text.IntToDecimalRoundTrip(s.failedTests);
  }

  lemma NoNewlineInDecimal(i: int)
    ensures '\n' !in Text.IntToDecimal(i)
  {
    var s := Text.IntToDecimal(i);
    if i < 0 {
      assert s[1..] == Text.NatToDecimal(-i);
    }
  }
}

=== FILE: test_runner.dfy ===
/** The annotation-driven test runner: discovery of the marked methods, the
    per-test protocol (fresh instance, befores, test, afters) with its fault
    containment, the loop over all tests, and the statistics.

    Reflection is replaced by data: the declared methods arrive as a sequence,
    each method's body is an `Outcome`, and the constructor is a `factory`
    giving the outcome of its k-th call (one call per test, k counting from 0).
    Every run returns, besides its value, the trace of the steps it took. */
module TestRunner {
  import opened Wrappers
  import opened Faults
  import opened TestModel

  /** A step of a run: attempting to create instance number `instance`, or
      invoking `target` on that instance. */
  datatype Event = Instantiate(instance: nat) | Invoke(instance: nat, target: MethodEntry)

  /** Result of a before- or after-stage: whether it ran to the end, and its steps. */
  datatype Stage = Stage(completed: bool, trace: seq<Event>)

  /** Result of the test-body stage: the root cause of its fault, if any, and its steps. */
  datatype TestStep = TestStep(exception: Option<Fault>, trace: seq<Event>)

  /** Result of one test: its `TestResult`, or the fault that escapes the test
      (construction failure), and the steps taken. */
  datatype TestRun = TestRun(result: Result<TestResult, Fault>, trace: seq<Event>)

  /** Result of the loop over all tests. */
  datatype Run = Run(results: Result<seq<TestResult>, Fault>, trace: seq<Event>)

  /** What `runTests` returns or throws, and the steps taken. */
  datatype Report = Report(statistics: Result<TestStatistics, Fault>, trace: seq<Event>)

  const BeforeFailureMessage := "Ошибка в методе @Before"
  const CreationFailurePrefix := "Не удалось создать экземпляр класса: "

  /* ---------------- discovery ---------------- */

  /** `findMethodsWithAnnotation`: the declared methods carrying `marker`. */
  function FindMethodsWithAnnotation(methods: seq<MethodEntry>, marker: Marker): (group: seq<MethodEntry>)
    ensures |group| <= |methods|
    ensures forall j :: 0 <= j < |group| ==> marker in group[j].markers
    ensures forall p :: 0 <= p < |methods| && marker in methods[p].markers ==> methods[p] in group
    ensures forall j :: 0 <= j < |group| ==> group[j] in methods
    decreases |methods|
  {
    if |methods| == 0 then []
    else
      var rest := FindMethodsWithAnnotation(methods[1..], marker);
      assert forall p :: 1 <= p < |methods| ==> methods[p] == methods[1..][p - 1];
      if marker in methods[0].markers then [methods[0]] + rest else rest
  }

  /** `analyzeTestClass`: the plan, each group discovered independently. */
  function AnalyzeTestClass(cls: TestClass): (ctx: TestClassContext)
    ensures ctx.testClass == cls
    ensures forall m :: m in ctx.beforeMethods <==> m in cls.declaredMethods && Before in m.markers
    ensures forall m :: m in ctx.testMethods <==> m in cls.declaredMethods && Test in m.markers
    ensures forall m :: m in ctx.afterMethods <==> m in cls.declaredMethods && After in m.markers
  {
    TestClassContext(
      cls,
      FindMethodsWithAnnotation(cls.declaredMethods, Before),
      FindMethodsWithAnnotation(cls.declaredMethods, Test),
      FindMethodsWithAnnotation(cls.declaredMethods, After))
  }

  /* ---------------- execution ---------------- */

  /** Invoking each of `ms`, in order, on instance `k`. */
  function Calls(k: nat, ms: seq<MethodEntry>): (trace: seq<Event>)
    ensures |trace| == |ms|
  {
    seq(|ms|, j requires 0 <= j < |ms| => Invoke(k, ms[j]))
  }

  /** `Method.invoke`: a fault thrown by the body comes out wrapped in an
      `InvocationTargetException`. */
  function InvokeMethod(m: MethodEntry): (r: Outcome)
    ensures r.Ok? <==> m.body.Ok?
    ensures m.body.Throws? ==> r == Throws(InvocationTargetException(m.body.fault))
  {
    match m.body
    case Ok => Ok
    case Throws(f) => Throws(InvocationTargetException(f))
  }

  /** `createTestInstance`: the k-th constructor call, with any fault it raises
      rethrown inside a `TestExecutionException` naming the class. */
  function CreateTestInstance(cls: TestClass, factory: nat -> Outcome, k: nat): (r: Result<nat, Fault>)
    ensures r.Success? <==> factory(k).Ok?
    ensures r.Success? ==> r.value == k
    ensures r.Failure? ==> (&& r.error.kind == TestExecutionExceptionKind
                            && r.error.message == CreationFailurePrefix + cls.name
                            && r.error.cause == Some(factory(k).fault))
  {
    match factory(k)
    case Ok => Success(k)
    case Throws(e) => Failure(TestExecutionExceptionWithCause(CreationFailurePrefix + cls.name, e))
  }

  /** `executeBeforeMethods`: invokes the befores in order and stops at the first fault. */
  function ExecuteBeforeMethods(befores: seq<MethodEntry>, instance: nat): (st: Stage)
    ensures st.completed <==> forall i :: 0 <= i < |befores| ==> befores[i].body.Ok?
    decreases |befores|
  {
    if |befores| == 0 then Stage(true, [])
    else
      var step := Invoke(instance, befores[0]);
      match InvokeMethod(befores[0])
      case Throws(_) => Stage(false, [step])
      case Ok =>
        var rest := ExecuteBeforeMethods(befores[1..], instance);
        assert forall i :: 1 <= i < |befores| ==> befores[i] == befores[1..][i - 1];
        Stage(rest.completed, [step] + rest.trace)
  }

  /** `executeTestMethod`: the root cause of the fault the invocation raised, if any. */
  function ExecuteTestMethod(test: MethodEntry, instance: nat): (res: TestStep)
    ensures res.trace == [Invoke(instance, test)]
    ensures res.exception.None? <==> test.body.Ok?
    ensures test.body.Throws? ==> res.exception == Some(test.body.fault)
  {
    match InvokeMethod(test)
    case Ok => TestStep(None, [Invoke(instance, test)])
    case Throws(e) => TestStep(Some(RootCause(e)), [Invoke(instance, test)])
  }

  /** `executeAfterMethods`: invokes every after in order; each fault is caught
      (and only logged), so it neither stops the loop nor reaches the caller. */
  function ExecuteAfterMethods(afters: seq<MethodEntry>, instance: nat): (trace: seq<Event>)
    ensures trace == Calls(instance, afters)
    decreases |afters|
  {
    if |afters| == 0 then []
    else
      var rest := ExecuteAfterMethods(afters[1..], instance);
      assert Calls(instance, afters) == [Invoke(instance, afters[0])] + Calls(instance, afters[1..]);
      [Invoke(instance, afters[0])] + rest
  }

  /** `executeSingleTest` for the k-th test method. A construction fault is not
      caught here: it escapes as the run's fault. */
  function ExecuteSingleTest(ctx: TestClassContext, test: MethodEntry, k: nat, factory: nat -> Outcome): (run: TestRun)
    ensures 1 <= |run.trace| && run.trace[0] == Instantiate(k)
    ensures run.result.Failure? <==> factory(k).Throws?
    ensures run.result.Failure? ==> run.trace == [Instantiate(k)]
    ensures run.result.Success? ==> run.result.value.testName == test.name
    ensures run.result.Success? ==> (run.result.value.passed <==> run.result.value.exception == None)
  {
    var testName := test.name;
    match CreateTestInstance(ctx.testClass, factory, k)
    case Failure(e) => TestRun(Failure(e), [Instantiate(k)])
    case Success(instance) =>
      var before := ExecuteBeforeMethods(ctx.beforeMethods, instance);
      if !before.completed then
        var after := ExecuteAfterMethods(ctx.afterMethods, instance);
        var failure := TestFailure(testName, Some(TestExecutionException(BeforeFailureMessage)));
        TestRun(Success(failure), [Instantiate(k)] + before.trace + after)
      else
        var step := ExecuteTestMethod(test, instance);
        var testException := step.exception;
        var testTrace := step.trace;
        var after := ExecuteAfterMethods(ctx.afterMethods, instance);
        var result := if testException.Some? then TestFailure(testName, testException) else TestSuccess(testName);
        TestRun(Success(result), [Instantiate(k)] + before.trace + testTrace + after)
  }

  /** The loop of `executeAllTests` from the k-th test on. */
  function ExecuteTestsFrom(ctx: TestClassContext, k: nat, factory: nat -> Outcome): (run: Run)
    requires k <= |ctx.testMethods|
    ensures run.results.Success? <==> forall j :: k <= j < |ctx.testMethods| ==> factory(j).Ok?
    ensures run.results.Success? ==> |run.results.value| == |ctx.testMethods| - k
    decreases |ctx.testMethods| - k
  {
    if k == |ctx.testMethods| then Run(Success([]), [])
    else
      var one := ExecuteSingleTest(ctx, ctx.testMethods[k], k, factory);
      match one.result
      case Failure(e) => Run(Failure(e), one.trace)
      case Success(r) =>
        var rest := ExecuteTestsFrom(ctx, k + 1, factory);
        match rest.results
        case Failure(e) => Run(Failure(e), one.trace + rest.trace)
        case Success(rs) => Run(Success([r] + rs), one.trace + rest.trace)
  }

  /** `executeAllTests`: every test of the plan, in plan order. */
  function ExecuteAllTests(ctx: TestClassContext, factory: nat -> Outcome): (run: Run)
    ensures run.results.Success? <==> forall j :: 0 <= j < |ctx.testMethods| ==> factory(j).Ok?
    ensures run.results.Success? ==> |run.results.value| == |ctx.testMethods|
  {
    ExecuteTestsFrom(ctx, 0, factory)
  }

  /* ---------------- statistics ---------------- */

  /** The pass flags of a result list, in order. */
  function PassFlags(results: seq<TestResult>): (flags: seq<bool>)
    ensures |flags| == |results|
  {
    seq(|results|, i requires 0 <= i < |results| => results[i].passed)
  }

  /** The stream `filter(TestResult::passed).count()`. */
  function CountPassed(results: seq<TestResult>): (n: nat)
    ensures n == multiset(PassFlags(results))[true]
    ensures n <= |results|
    decreases |results|
  {
    if |results| == 0 then 0
    else
      var rest := CountPassed(results[1..]);
      assert PassFlags(results) == [results[0].passed] + PassFlags(results[1..]);
      (if results[0].passed then 1 else 0) + rest
  }

  /** `calculateStatistics`. */
  function CalculateStatistics(results: seq<TestResult>): (s: TestStatistics)
    ensures s.totalTests == |results|
    ensures s.passedTests == multiset(PassFlags(results))[true]
    ensures s.failedTests == multiset(PassFlags(results))[false]
    ensures s.totalTests == s.passedTests + s.failedTests
    ensures 0 <= s.passedTests <= s.totalTests && 0 <= s.failedTests
  {
    var total := |results|;
    var passed := CountPassed(results);
    var flags := PassFlags(results);
    assert |multiset(flags)| == total;
    assert multiset(flags)[true] + multiset(flags)[false] == total by {
      FlagCounts(flags);
    }
    TestStatistics(total, passed, total - passed)
  }

  /** In a sequence of booleans, the true and the false entries add up to all of them. */
  lemma {:induction false} FlagCounts(flags: seq<bool>)
    ensures multiset(flags)[true] + multiset(flags)[false] == |flags|
    decreases |flags|
  {
    if |flags| > 0 {
      FlagCounts(flags[1..]);
      assert flags == [flags[0]] + flags[1..];
      assert multiset(flags) == multiset([flags[0]]) + multiset(flags[1..]);
      if flags[0] {
        assert multiset([flags[0]]) == multiset{true};
      } else {
        assert multiset([flags[0]]) == multiset{false};
      }
    }
  }

  /** `runTests`: discover, execute, aggregate. Printing the report is left out. */
  function RunTests(cls: TestClass, factory: nat -> Outcome): (report: Report)
    ensures var tests := AnalyzeTestClass(cls).testMethods;
      report.statistics.Success? <==> forall j :: 0 <= j < |tests| ==> factory(j).Ok?
    ensures report.statistics.Success? ==>
      report.statistics.value.totalTests == |AnalyzeTestClass(cls).testMethods|
    ensures report.statistics.Failure? ==>
      report.statistics.error == ExecuteAllTests(AnalyzeTestClass(cls), factory).results.error
    ensures report.trace == ExecuteAllTests(AnalyzeTestClass(cls), factory).trace
  {
    var ctx := AnalyzeTestClass(cls);
    var run := ExecuteAllTests(ctx, factory);
    match run.results
    case Failure(e) => Report(Failure(e), run.trace)
    case Success(results) => Report(Success(CalculateStatistics(results)), run.trace)
  }
}

=== FILE: test_runner_proofs.dfy ===
/** Properties of the test runner: discovery keeps the declared order, the trace
    of one test is instance, befores, test, afters with the documented skipping,
    a construction fault ends the run, and the statistics count the results. */
module TestRunnerProofs {
  import opened Wrappers
  import opened Faults
  import opened TestModel
  import opened TestRunner

  /* ---------------- reference definitions ---------------- */

  /** Every body in `ms` returns normally. */
  predicate AllComplete(ms: seq<MethodEntry>) {
    forall j :: 0 <= j < |ms| ==> ms[j].body.Ok?
  }

  /** `ms[i]` is the first body in `ms` that throws. */
  predicate FirstFaultAt(ms: seq<MethodEntry>, i: nat) {
    i < |ms| && ms[i].body.Throws? && forall j :: 0 <= j < i ==> ms[j].body.Ok?
  }

  /** `pos` lists, in increasing order, exactly the positions of `methods` whose
      entry carries `marker`. */
  predicate MarkedPositions(pos: seq<nat>, methods: seq<MethodEntry>, marker: Marker) {
    && (forall j :: 0 <= j < |pos| ==> pos[j] < |methods|)
    && (forall i, j :: 0 <= i < j < |pos| ==> pos[i] < pos[j])
    && (forall p :: 0 <= p < |methods| ==> (marker in methods[p].markers <==> p in pos))
  }

  /** The steps of tests `lo` up to (not including) `hi`, one after the other. */
  function TracesBetween(ctx: TestClassContext, factory: nat -> Outcome, lo: nat, hi: nat): seq<Event>
    requires lo <= hi <= |ctx.testMethods|
    decreases hi - lo
  {
    if lo == hi then []
    else ExecuteSingleTest(ctx, ctx.testMethods[lo], lo, factory).trace + TracesBetween(ctx, factory, lo + 1, hi)
  }

  /* ---------------- discovery ---------------- */

  /** A discovered group is the declared sequence restricted to the positions
      carrying the marker, in their original order: nothing added, nothing
      dropped, nothing reordered. */
  lemma {:induction false} DiscoveryKeepsDeclaredOrder(methods: seq<MethodEntry>, marker: Marker)
    returns (pos: seq<nat>)
    ensures MarkedPositions(pos, methods, marker)
    ensures var group := FindMethodsWithAnnotation(methods, marker);
      |group| == |pos| && forall j :: 0 <= j < |pos| ==> group[j] == methods[pos[j]]
    decreases |methods|
  {
    if |methods| == 0 {
      pos := [];
    } else {
      var tail := DiscoveryKeepsDeclaredOrder(methods[1..], marker);
      var rest := FindMethodsWithAnnotation(methods[1..], marker);
      var shifted := Shift(tail);
      ShiftedPositions(tail, shifted, methods, marker);
      forall j | 0 <= j < |shifted|
        ensures rest[j] == methods[shifted[j]]
      {
        assert rest[j] == methods[1..][tail[j]];
      }
      if marker in methods[0].markers {
        pos := [0] + shifted;
        PrependGroup(methods, rest, shifted);
      } else {
        pos := shifted;
      }
      PrependPosition(shifted, pos, methods, marker);
    }
  }

  lemma PrependGroup(methods: seq<MethodEntry>, rest: seq<MethodEntry>, shifted: seq<nat>)
    requires 1 <= |methods|
    requires |rest| == |shifted|
    requires forall j :: 0 <= j < |shifted| ==> shifted[j] < |methods| && rest[j] == methods[shifted[j]]
    ensures var group := [methods[0]] + rest;
      var pos := [0] + shifted;
      forall j :: 0 <= j < |pos| ==> pos[j] < |methods| && group[j] == methods[pos[j]]
  {
    var group := [methods[0]] + rest;
    var pos := [0] + shifted;
    forall j | 1 <= j < |pos|
      ensures pos[j] < |methods| && group[j] == methods[pos[j]]
    {
      assert group[j] == rest[j - 1] && pos[j] == shifted[j - 1];
    }
  }

  lemma PrependPosition(shifted: seq<nat>, pos: seq<nat>, methods: seq<MethodEntry>, marker: Marker)
    requires 1 <= |methods|
    requires forall j :: 0 <= j < |shifted| ==> 1 <= shifted[j] < |methods|
    requires forall i, j :: 0 <= i < j < |shifted| ==> shifted[i] < shifted[j]
    requires forall p :: 1 <= p < |methods| ==> (marker in methods[p].markers <==> p in shifted)
    requires 0 !in shifted
    requires pos == if marker in methods[0].markers then [0] + shifted else shifted
    ensures MarkedPositions(pos, methods, marker)
  {
  }

  function Shift(pos: seq<nat>): (shifted: seq<nat>)
    ensures |shifted| == |pos|
    ensures forall j :: 0 <= j < |pos| ==> shifted[j] == pos[j] + 1
  {
    seq(|pos|, j requires 0 <= j < |pos| => pos[j] + 1)
  }

  /** Moving the positions found in `methods[1..]` up by one locates the same
      entries in `methods`. */
  lemma ShiftedPositions(tail: seq<nat>, shifted: seq<nat>, methods: seq<MethodEntry>, marker: Marker)
    requires 1 <= |methods|
    requires MarkedPositions(tail, methods[1..], marker)
    requires shifted == Shift(tail)
    ensures forall j :: 0 <= j < |shifted| ==> 1 <= shifted[j] < |methods|
    ensures forall i, j :: 0 <= i < j < |shifted| ==> shifted[i] < shifted[j]
    ensures forall p :: 1 <= p < |methods| ==> (marker in methods[p].markers <==> p in shifted)
    ensures 0 !in shifted
  {
    forall p | 1 <= p < |methods|
      ensures marker in methods[p].markers <==> p in shifted
    {
      assert methods[p] == methods[1..][p - 1];
      if p - 1 in tail {
        var j :| 0 <= j < |tail| && tail[j] == p - 1;
        assert shifted[j] == p;
      }
    }
  }

  /* ---------------- one test ---------------- */

  /** With no faulting before, the before-stage completes after invoking all of them in order. */
  lemma {:induction false} BeforeStageCompletes(befores: seq<MethodEntry>, k: nat)
    requires AllComplete(befores)
    ensures ExecuteBeforeMethods(befores, k) == Stage(true, Calls(k, befores))
    decreases |befores|
  {
    if |befores| > 0 {
      BeforeStageCompletes(befores[1..], k);
      assert Calls(k, befores) == [Invoke(k, befores[0])] + Calls(k, befores[1..]);
    }
  }

  /** The first faulting before is the last one invoked, and the stage reports failure. */
  lemma {:induction false} BeforeStageStopsAtFirstFault(befores: seq<MethodEntry>, k: nat, i: nat)
    requires FirstFaultAt(befores, i)
    ensures ExecuteBeforeMethods(befores, k) == Stage(false, Calls(k, befores[..i + 1]))
    decreases |befores|
  {
    if i == 0 {
      assert Calls(k, befores[..1]) == [Invoke(k, befores[0])];
    } else {
      var tail := befores[1..];
      assert FirstFaultAt(tail, i - 1) by {
        assert forall j :: 0 <= j < i - 1 ==> tail[j] == befores[j + 1];
      }
      BeforeStageStopsAtFirstFault(tail, k, i - 1);
      assert ExecuteBeforeMethods(befores, k)
          == Stage(false, [Invoke(k, befores[0])] + Calls(k, tail[..i]));
      assert tail[..i] == befores[1..i + 1];
      assert Calls(k, befores[..i + 1]) == [Invoke(k, befores[0])] + Calls(k, befores[1..i + 1]);
    }
  }

  /** Without faults in the befores, one test is: a fresh instance k, every
      before in order, the test body, every after in order, all on instance k.
      The result is a success when the body returns, and otherwise a failure
      carrying exactly the fault the body threw (the invocation wrapper removed). */
  lemma SingleTestWithoutBeforeFault(ctx: TestClassContext, test: MethodEntry, k: nat, factory: nat -> Outcome)
    requires factory(k).Ok?
    requires AllComplete(ctx.beforeMethods)
    ensures var run := ExecuteSingleTest(ctx, test, k, factory);
      && run.trace == [Instantiate(k)] + Calls(k, ctx.beforeMethods) + [Invoke(k, test)] + Calls(k, ctx.afterMethods)
      && run.result == Success(match test.body
                               case Ok => TestSuccess(test.name)
                               case Throws(f) => TestFailure(test.name, Some(f)))
  {
    BeforeStageCompletes(ctx.beforeMethods, k);
  }

  /** When the i-th before is the first to throw, the later befores and the test
      body are skipped, every after still runs, and the failure carries a fresh
      "Ошибка в методе @Before" fault without cause, not the before's own fault. */
  lemma SingleTestWithBeforeFault(ctx: TestClassContext, test: MethodEntry, k: nat, factory: nat -> Outcome, i: nat)
    requires factory(k).Ok?
    requires FirstFaultAt(ctx.beforeMethods, i)
    ensures var run := ExecuteSingleTest(ctx, test, k, factory);
      && run.trace == [Instantiate(k)] + Calls(k, ctx.beforeMethods[..i + 1]) + Calls(k, ctx.afterMethods)
      && run.result == Success(TestFailure(test.name, Some(Fault(TestExecutionExceptionKind, BeforeFailureMessage, None))))
  {
    BeforeStageStopsAtFirstFault(ctx.beforeMethods, k, i);
  }

  /** A test whose instance was created yields a result named after the test; it
      passes exactly when every before and the body return normally, and its
      exception is absent exactly when it passes. */
  lemma SingleTestVerdict(ctx: TestClassContext, test: MethodEntry, k: nat, factory: nat -> Outcome)
    requires factory(k).Ok?
    ensures var run := ExecuteSingleTest(ctx, test, k, factory);
      && run.result.Success?
      && run.result.value.testName == test.name
      && (run.result.value.passed <==> AllComplete(ctx.beforeMethods) && test.body.Ok?)
      && (run.result.value.passed <==> run.result.value.exception == None)
  {
  }

  /** The afters never influence the result: replacing them by any other methods
      (faulting or not) yields the same result. */
  lemma AftersDoNotAffectResult(ctx: TestClassContext, afters: seq<MethodEntry>, test: MethodEntry, k: nat, factory: nat -> Outcome)
    ensures ExecuteSingleTest(ctx.(afterMethods := afters), test, k, factory).result
         == ExecuteSingleTest(ctx, test, k, factory).result
  {
  }

  /** Every step of the k-th test concerns instance k, which is created first. */
  lemma SingleTestUsesOneInstance(ctx: TestClassContext, test: MethodEntry, k: nat, factory: nat -> Outcome)
    ensures var trace := ExecuteSingleTest(ctx, test, k, factory).trace;
      && 1 <= |trace| && trace[0] == Instantiate(k)
      && forall j :: 0 <= j < |trace| ==> trace[j].instance == k
  {
    var befores := ctx.beforeMethods;
    if AllComplete(befores) {
      BeforeStageCompletes(befores, k);
    } else {
      var i := FirstFault(befores);
      BeforeStageStopsAtFirstFault(befores, k, i);
    }
  }

  /** The position of the first faulting body, when some body faults. */
  lemma FirstFault(ms: seq<MethodEntry>) returns (i: nat)
    requires !AllComplete(ms)
    ensures FirstFaultAt(ms, i)
  {
    i := 0;
    while ms[i].body.Ok?
      invariant i < |ms|
      invariant forall j :: 0 <= j < i ==> ms[j].body.Ok?
      decreases |ms| - i
    {
      i := i + 1;
      if i == |ms| {
        assert AllComplete(ms);
        assert false;
      }
    }
  }

  /* ---------------- the whole run ---------------- */

  /** When every construction succeeds, the run yields exactly one result per
      test, in plan order, each named after its test and equal to that test's
      own result, and its steps are the tests' steps one after the other. */
  lemma {:induction false} AllTestsRun(ctx: TestClassContext, k: nat, factory: nat -> Outcome)
    requires k <= |ctx.testMethods|
    requires forall j :: k <= j < |ctx.testMethods| ==> factory(j).Ok?
    ensures var run := ExecuteTestsFrom(ctx, k, factory);
      && run.results.Success?
      && |run.results.value| == |ctx.testMethods| - k
      && (forall j :: k <= j < |ctx.testMethods| ==>
            && ExecuteSingleTest(ctx, ctx.testMethods[j], j, factory).result == Success(run.results.value[j - k])
            && run.results.value[j - k].testName == ctx.testMethods[j].name)
      && run.trace == TracesBetween(ctx, factory, k, |ctx.testMethods|)
    decreases |ctx.testMethods| - k
  {
    if k < |ctx.testMethods| {
      var one := ExecuteSingleTest(ctx, ctx.testMethods[k], k, factory);
      AllTestsRun(ctx, k + 1, factory);
      var rest := ExecuteTestsFrom(ctx, k + 1, factory);
      var rs := [one.result.value] + rest.results.value;
      assert ExecuteTestsFrom(ctx, k, factory) == Run(Success(rs), one.trace + rest.trace);
      forall j | k + 1 <= j < |ctx.testMethods|
        ensures ExecuteSingleTest(ctx, ctx.testMethods[j], j, factory).result == Success(rs[j - k])
      {
        assert rs[j - k] == rest.results.value[j - (k + 1)];
      }
    }
  }

  /** If the k-th construction is the first to fail, the run ends there: it
      throws a `TestExecutionException` naming the class, whose cause is the
      construction fault, and its steps are those of the earlier tests followed
      by the failed attempt; no later test is touched. */
  lemma {:induction false} ConstructionFaultAbortsRun(ctx: TestClassContext, lo: nat, k: nat, factory: nat -> Outcome)
    requires lo <= k < |ctx.testMethods|
    requires forall j :: lo <= j < k ==> factory(j).Ok?
    requires factory(k).Throws?
    ensures var run := ExecuteTestsFrom(ctx, lo, factory);
      && run.results == Failure(Fault(TestExecutionExceptionKind,
                                      CreationFailurePrefix + ctx.testClass.name,
                                      Some(factory(k).fault)))
      && run.trace == TracesBetween(ctx, factory, lo, k) + [Instantiate(k)]
    decreases k - lo
  {
    ConstructionFaultThrown(ctx, lo, k, factory);
    ConstructionFaultSteps(ctx, lo, k, factory);
  }

  /** The fault half of `ConstructionFaultAbortsRun`. */
  lemma {:induction false} ConstructionFaultThrown(ctx: TestClassContext, lo: nat, k: nat, factory: nat -> Outcome)
    requires lo <= k < |ctx.testMethods|
    requires forall j :: lo <= j < k ==> factory(j).Ok?
    requires factory(k).Throws?
    ensures ExecuteTestsFrom(ctx, lo, factory).results
         == Failure(TestExecutionExceptionWithCause(CreationFailurePrefix + ctx.testClass.name, factory(k).fault))
    decreases k - lo
  {
    if lo < k {
      ConstructionFaultThrown(ctx, lo + 1, k, factory);
    }
  }

  /** The steps half of `ConstructionFaultAbortsRun`. */
  lemma {:induction false} ConstructionFaultSteps(ctx: TestClassContext, lo: nat, k: nat, factory: nat -> Outcome)
    requires lo <= k < |ctx.testMethods|
    requires forall j :: lo <= j < k ==> factory(j).Ok?
    requires factory(k).Throws?
    ensures ExecuteTestsFrom(ctx, lo, factory).trace == TracesBetween(ctx, factory, lo, k) + [Instantiate(k)]
    decreases k - lo
  {
    if lo < k {
      ConstructionFaultSteps(ctx, lo + 1, k, factory);
      var first := ExecuteSingleTest(ctx, ctx.testMethods[lo], lo, factory).trace;
      var between := TracesBetween(ctx, factory, lo + 1, k);
      assert TracesBetween(ctx, factory, lo, k) == first + between;
      AppendAssociative(first, between, [Instantiate(k)]);
    }
  }

  lemma AppendAssociative<T>(a: seq<T>, b: seq<T>, c: seq<T>)
    ensures (a + b) + c == a + (b + c)
  {
  }

  /** The steps of tests `lo` to `hi` only concern instances `lo` to `hi - 1`. */
  lemma {:induction false} TracesBetweenInstances(ctx: TestClassContext, factory: nat -> Outcome, lo: nat, hi: nat)
    requires lo <= hi <= |ctx.testMethods|
    ensures forall e :: e in TracesBetween(ctx, factory, lo, hi) ==> lo <= e.instance < hi
    decreases hi - lo
  {
    if lo < hi {
      SingleTestUsesOneInstance(ctx, ctx.testMethods[lo], lo, factory);
      TracesBetweenInstances(ctx, factory, lo + 1, hi);
    }
  }

  /** A construction fault at test k means no instance after k is ever touched,
      and instance k itself is only attempted, never used. */
  lemma NoTestAfterConstructionFault(ctx: TestClassContext, k: nat, factory: nat -> Outcome)
    requires k < |ctx.testMethods|
    requires forall j :: 0 <= j < k ==> factory(j).Ok?
    requires factory(k).Throws?
    ensures var trace := ExecuteAllTests(ctx, factory).trace;
      && trace[|trace| - 1] == Instantiate(k)
      && forall j :: 0 <= j < |trace| - 1 ==> trace[j].instance < k
  {
    ConstructionFaultAbortsRun(ctx, 0, k, factory);
    TracesBetweenInstances(ctx, factory, 0, k);
    var before := TracesBetween(ctx, factory, 0, k);
    assert forall j :: 0 <= j < |before| ==> before[j] in before;
  }

  /** In any completed run, each result passed exactly when it carries no exception. */
  lemma RunnerFailuresCarryFault(ctx: TestClassContext, factory: nat -> Outcome)
    requires ExecuteAllTests(ctx, factory).results.Success?
    ensures var rs := ExecuteAllTests(ctx, factory).results.value;
      forall j :: 0 <= j < |rs| ==> (rs[j].passed <==> rs[j].exception == None)
  {
    AllTestsRun(ctx, 0, factory);
    var rs := ExecuteAllTests(ctx, factory).results.value;
    forall j | 0 <= j < |rs|
      ensures rs[j].passed <==> rs[j].exception == None
    {
      SingleTestVerdict(ctx, ctx.testMethods[j], j, factory);
    }
  }

  /** The least index up to `j` at which the factory faults. */
  lemma FirstConstructionFault(factory: nat -> Outcome, j: nat) returns (k: nat)
    requires factory(j).Throws?
    ensures k <= j && factory(k).Throws? && forall i :: 0 <= i < k ==> factory(i).Ok?
  {
    k := 0;
    while factory(k).Ok?
      invariant k <= j
      invariant forall i :: 0 <= i < k ==> factory(i).Ok?
      decreases j - k
    {
      k := k + 1;
    }
  }

  /** The only fault that escapes a run is a construction fault: when the run
      throws, some construction failed, and the fault thrown names the class and
      carries the first construction fault as its cause. */
  lemma OnlyConstructionFaultsEscape(ctx: TestClassContext, factory: nat -> Outcome) returns (k: nat)
    requires ExecuteAllTests(ctx, factory).results.Failure?
    ensures k < |ctx.testMethods| && factory(k).Throws?
    ensures forall j :: 0 <= j < k ==> factory(j).Ok?
    ensures ExecuteAllTests(ctx, factory).results.error
         == TestExecutionExceptionWithCause(CreationFailurePrefix + ctx.testClass.name, factory(k).fault)
  {
    var j :| 0 <= j < |ctx.testMethods| && factory(j).Throws?;
    k := FirstConstructionFault(factory, j);
    ConstructionFaultAbortsRun(ctx, 0, k, factory);
  }

  /** At the entry point: when `runTests` throws, it throws the class-naming
      `TestExecutionException` whose cause is the first construction fault. */
  lemma RunTestsThrowsWrappedFault(cls: TestClass, factory: nat -> Outcome) returns (k: nat)
    requires RunTests(cls, factory).statistics.Failure?
    ensures k < |AnalyzeTestClass(cls).testMethods| && factory(k).Throws?
    ensures forall j :: 0 <= j < k ==> factory(j).Ok?
    ensures RunTests(cls, factory).statistics.error
         == TestExecutionExceptionWithCause(CreationFailurePrefix + cls.name, factory(k).fault)
  {
    k := OnlyConstructionFaultsEscape(AnalyzeTestClass(cls), factory);
  }

  /** End to end: with every construction succeeding, `runTests` reports one
      test per `@Test` method; they all fail when some before throws, and
      otherwise exactly those whose body returns normally pass. */
  lemma RunTestsStatistics(cls: TestClass, factory: nat -> Outcome)
    requires forall j :: 0 <= j < |AnalyzeTestClass(cls).testMethods| ==> factory(j).Ok?
    ensures var ctx := AnalyzeTestClass(cls);
      var tests := ctx.testMethods;
      var report := RunTests(cls, factory);
      var bodiesOk := seq(|tests|, j requires 0 <= j < |tests| => tests[j].body.Ok?);
      && report.statistics.Success?
      && report.statistics.value.totalTests == |tests|
      && report.statistics.value.passedTests
         == (if AllComplete(ctx.beforeMethods) then multiset(bodiesOk)[true] else 0)
      && report.statistics.value.failedTests
         == |tests| - report.statistics.value.passedTests
  {
    var ctx := AnalyzeTestClass(cls);
    var tests := ctx.testMethods;
    var bodiesOk := seq(|tests|, j requires 0 <= j < |tests| => tests[j].body.Ok?);
    var flags := PassFlags(ExecuteAllTests(ctx, factory).results.value);
    PassFlagsOfRun(ctx, factory);
    if AllComplete(ctx.beforeMethods) {
      assert flags == bodiesOk;
    } else {
      assert true !in flags;
    }
  }

  /** With every construction succeeding, the j-th pass flag of the run is
      "every before and the j-th test body return normally". */
  lemma PassFlagsOfRun(ctx: TestClassContext, factory: nat -> Outcome)
    requires forall j :: 0 <= j < |ctx.testMethods| ==> factory(j).Ok?
    ensures var rs := ExecuteAllTests(ctx, factory).results.value;
      forall j :: 0 <= j < |rs| ==>
        PassFlags(rs)[j] == (AllComplete(ctx.beforeMethods) && ctx.testMethods[j].body.Ok?)
  {
    AllTestsRun(ctx, 0, factory);
    var rs := ExecuteAllTests(ctx, factory).results.value;
    forall j | 0 <= j < |rs|
      ensures PassFlags(rs)[j] == (AllComplete(ctx.beforeMethods) && ctx.testMethods[j].body.Ok?)
    {
      SingleTestVerdict(ctx, ctx.testMethods[j], j, factory);
    }
  }

  /** A class without `@Test` methods runs nothing and reports zero of everything. */
  lemma NoTestsNoWork(cls: TestClass, factory: nat -> Outcome)
    requires forall p :: 0 <= p < |cls.declaredMethods| ==> Test !in cls.declaredMethods[p].markers
    ensures RunTests(cls, factory) == Report(Success(TestStatistics(0, 0, 0)), [])
  {
  }
}

=== FILE: text.dfy ===
/** Text rendering shared by the models: decimal numbers (Java's `%d` and string
    concatenation of an `int`), joining with a separator, and splitting into lines. */
module Text {

  predicate IsDigit(c: char) {
    '0' <= c <= '9'
  }

  predicate AllDigits(s: string) {
    forall i :: 0 <= i < |s| ==> IsDigit(s[i])
  }

  function DigitChar(d: nat): (c: char)
    requires d < 10
    ensures IsDigit(c)
  {
    ('0' as int + d) as char
  }

  function DigitValue(c: char): (d: nat)
    requires IsDigit(c)
    ensures d < 10
  {
    c as int - '0' as int
  }

  /** Decimal digits of `n`, most significant first, without leading zeros. */
  function NatToDecimal(n: nat): (s: string)
    ensures 1 <= |s|
    ensures AllDigits(s)
    ensures |s| > 1 ==> s[0] != '0'
    decreases n
  {
    if n < 10 then [DigitChar(n)]
    else NatToDecimal(n / 10) + [DigitChar(n % 10)]
  }

  /** The value of a digit string read in base ten. */
  function ParseNat(s: string): nat
    requires AllDigits(s)
    decreases |s|
  {
    if |s| == 0 then 0
    else ParseNat(s[..|s| - 1]) * 10 + DigitValue(s[|s| - 1])
  }

  /** Java's decimal rendering of an integer: a leading '-' for negatives. */
  function IntToDecimal(i: int): (s: string)
    ensures 1 <= |s|
    ensures s[0] == '-' <==> i < 0
  {
    if i < 0 then "-" + NatToDecimal(-i) else NatToDecimal(i)
  }

  function ParseInt(s: string): int
    requires 1 <= |s|
    requires s[0] == '-' ==> AllDigits(s[1..])
    requires s[0] != '-' ==> AllDigits(s)
  {
    if s[0] == '-' then 0 - ParseNat(s[1..]) as int else ParseNat(s)
  }

  /** Reading the rendered digits back gives the number: the rendering is decimal. */
  lemma {:induction false} ParseNatOfNatToDecimal(n: nat)
    ensures ParseNat(NatToDecimal(n)) == n
    decreases n
  {
    var s := NatToDecimal(n);
    if n < 10 {
      assert s[..|s| - 1] == [];
    } else {
      ParseNatOfNatToDecimal(n / 10);
      assert s[..|s| - 1] == NatToDecimal(n / 10);
    }
  }

  lemma IntToDecimalRoundTrip(i: int)
    ensures IntToDecimal(i)[0] == '-' ==> AllDigits(IntToDecimal(i)[1..])
    ensures IntToDecimal(i)[0] != '-' ==> AllDigits(IntToDecimal(i))
    ensures ParseInt(IntToDecimal(i)) == i
  {
    var s := IntToDecimal(i);
    if i < 0 {
      assert s[1..] == NatToDecimal(-i);
      ParseNatOfNatToDecimal(-i);
    } else {
      ParseNatOfNatToDecimal(i);
    }
  }

  /** Concatenation of `parts` with `sep` between neighbours, as `String.join` and
      `Collectors.joining` produce it: no separator before the first or after the last. */
  function Join(sep: string, parts: seq<string>): string
    decreases |parts|
  {
    if |parts| == 0 then ""
    else if |parts| == 1 then parts[0]
    else parts[0] + sep + Join(sep, parts[1..])
  }

  /** Joining four parts, spelled out. */
  lemma JoinFour(sep: string, a: string, b: string, c: string, d: string)
    ensures Join(sep, [a, b, c, d]) == a + sep + (b + sep + (c + sep + d))
  {
    assert [c, d][1..] == [d];
    assert Join(sep, [c, d]) == c + sep + d;
    assert [b, c, d][1..] == [c, d];
    assert Join(sep, [b, c, d]) == b + sep + (c + sep + d);
    assert [a, b, c, d][1..] == [b, c, d];
  }

  /** Index of the first `c` in `s`. */
  function FirstIndex(s: string, c: char): (i: nat)
    requires c in s
    ensures i < |s| && s[i] == c && c !in s[..i]
  {
    if s[0] == c then 0
    else
      assert c in s[1..] by { var k :| 0 <= k < |s| && s[k] == c; assert s[1..][k - 1] == c; }
      var j := FirstIndex(s[1..], c);
      assert s[..j + 1] == [s[0]] + s[1..][..j];
      j + 1
  }

  /** The pieces of `s` between occurrences of `c` (every piece, including empty ones). */
  function Split(s: string, c: char): (parts: seq<string>)
    ensures 1 <= |parts|
    decreases |s|
  {
    if c !in s then [s]
    else
      var i := FirstIndex(s, c);
      [s[..i]] + Split(s[i + 1..], c)
  }

  /** Splitting a joined text at the separator gives back the parts, provided no
      part contains the separator character. */
  lemma {:induction false} SplitJoin(parts: seq<string>, c: char)
    requires 1 <= |parts|
    requires forall k :: 0 <= k < |parts| ==> c !in parts[k]
    ensures Split(Join([c], parts), c) == parts
    decreases |parts|
  {
    if |parts| == 1 {
    } else {
      var rest := Join([c], parts[1..]);
      var s := parts[0] + [c] + rest;
      assert s[|parts[0]|] == c;
      assert s[..|parts[0]|] == parts[0];
      var i := FirstIndex(s, c);
      assert forall k :: 0 <= k < |parts[0]| ==> s[k] == parts[0][k];
      assert i == |parts[0]|;
      assert s[i + 1..] == rest;
      SplitJoin(parts[1..], c);
    }
  }
}

=== FILE: wrappers.dfy ===
/** Option and Result types standing in for Java's null references and thrown exceptions. */
module Wrappers {

  /** `None` plays the role of a Java `null` reference. */
  datatype Option<+T> = None | Some(value: T)

  /** `Failure` carries whatever a Java call would have thrown instead of returning. */
  datatype Result<+R, +E> = Success(value: R) | Failure(error: E)
}
